=== FILE: README.md ===
# MediaConvert job trigger: a Dafny model

This project models the S3-triggered Lambda handler that turns an uploaded
video under `vod/` into an AWS Elemental MediaConvert HLS job
(`terraform_setting/lambda_function.py`, function `lambda_handler`).

The handler runs one straight pipeline with early exits:

1. It reads the bucket name and the object key from the first record of the
   event. It URL-decodes the key.
2. It refuses keys outside `vod/`, and keys that split on `/` into fewer
   than three segments.
3. It derives the base folder, content path, file name and extension-free
   stem.
4. It reads three environment variables. Then it builds the job's user
   metadata, whose output path is `base/content/stem` and whose output
   extension is `.m3u8`.
5. It writes the HLS destination `s3://<dest>/<outputPath>/` and the input
   `s3://<src>/<key>` into two fields of the `job.json` template.
6. It discovers the MediaConvert endpoint and creates the job. It then
   answers 200 with the job id, 400 for an event or key problem, or 500 for
   a configuration, template or service problem.

Modules, one per concern:

- `Results`: `Option` and `Result`.
- `PyStr`: Python `split`, `join`, `count`, `rfind` and POSIX
  `os.path.splitext`, on `string`.
- `JsonValue`: a parsed JSON document, and Python subscript reads and
  assignments on it. This covers the event access, the reply access and
  the template patch, and which exception each failure raises.
- `S3Key`: key validation, the key pieces, the job metadata and the S3 URIs.
- `Template`: the two-field patch of the job settings.
- `Handler`: the pipeline, the configuration, the response and the
  properties of the whole handler.

Inputs of the model are the event (as JSON), the environment (a map), the
outcome of reading `job.json` (unreadable, malformed, or a document), the
two MediaConvert calls (functions from their arguments to a reply document
or a failure) and a `Runtime` holding `unquote_plus` and Python's `str()`
of a non-string bucket name.

How the handler treats failures:

- The handler catches only `KeyError` around the event access, and answers
  it with 400. That covers a missing key. It also covers a dictionary where
  the `Records` list should be, since a dictionary subscripted with `0`
  raises `KeyError`.
- Other failures of the event access are not caught, so they leave the
  handler (`Outcome.Raised`):
  - An empty `Records` list, or an empty string in its place, raises
    `IndexError`.
  - A number, boolean or `null` where a dictionary or list should be raises
    `TypeError`. So does a list or a string where a dictionary should be.
  - A non-string key makes `unquote_plus` raise `AttributeError`.
- There is no 403 branch. A denied MediaConvert call is caught by the
  generic handler and answered with 500.
- A missing environment variable is answered with 500 at request time,
  after the key has been validated.

## Model

| member | source | states |
|---|---|---|
| PyStr.Split | terraform_setting/lambda_function.py:29 | `split('/')` yields one more segment than the key has `/`, no segment holds `/`, and joining the segments with `/` gives the key back |
| PyStr.Join | terraform_setting/lambda_function.py:39 | the join starts with the first part and, for `/`-free parts, holds exactly one `/` fewer than there are parts |
| PyStr.SplitJoin | terraform_setting/lambda_function.py:29-39 | splitting undoes joining for any non-empty list of `/`-free segments, so split and join are inverse |
| PyStr.SplitExt | terraform_setting/lambda_function.py:43 | `os.path.splitext`: root and extension concatenate to the input; a non-empty extension is one `.` followed by neither `.` nor `/`, and there is one exactly when the last component has a `.` preceded by a non-dot character |
| PyStr.SplitExtScan | terraform_setting/lambda_function.py:43 | the leading-dot scan CPython performs computes the same split as the declarative definition |
| PyStr.StemOfFileName | terraform_setting/lambda_function.py:43 | the stem is a prefix of the name, and is the whole name when the name has no extension, in particular when it has no `.` |
| JsonValue.Subscript | terraform_setting/lambda_function.py:16-17 | reading `x[k]` succeeds exactly on a dictionary holding the key, or a list or string with the index in range, yielding the entry, the item or a one-character string; `KeyError` (naming the subscript) arises exactly on a dictionary without that string key; `IndexError` exactly on an out-of-range list or string index |
| JsonValue.Store | terraform_setting/lambda_function.py:85-88 | assigning `x[k] = v` succeeds exactly on a dictionary with a string key or a list with an index in range |
| JsonValue.Get | terraform_setting/lambda_function.py:16-17 | a chained read fails only on a non-empty path, never with `AttributeError`, and a `KeyError` names one of the path's subscripts |
| JsonValue.GetLast | terraform_setting/lambda_function.py:16-17 | a chained read is the read of the parent followed by the last subscript, a failure on the way being the failure of the whole read |
| JsonValue.SetPath | terraform_setting/lambda_function.py:85-88 | a successful nested assignment happens in a list or dictionary and keeps the kind of the top-level value; no failure is an `AttributeError` |
| JsonValue.GetAfterSetPath | terraform_setting/lambda_function.py:85-88 | after a nested assignment, reading the same path gives the assigned value |
| JsonValue.SetPathFrame | terraform_setting/lambda_function.py:85-88 | a nested assignment leaves every path that diverges from the target reading as before |
| JsonValue.SetPathFailure | terraform_setting/lambda_function.py:85-88 | a failed nested assignment raises the exception of reading the parent path, or, when the parent is reached, the exception of the final subscript assignment on it |
| JsonValue.SetPathSucceedsIff | terraform_setting/lambda_function.py:85-88 | a nested assignment succeeds exactly when the parent path reads successfully and accepts an item assignment at the last subscript |
| Template.Patch | terraform_setting/lambda_function.py:84-88 | the patched settings hold the given destination at `OutputGroups[0]...HlsGroupSettings.Destination` and the given input at `Inputs[0].FileInput` |
| Template.PatchLeavesRestUnchanged | terraform_setting/lambda_function.py:85-88 | every path off both target fields reads the same in the patched and the original template |
| Template.PatchFrame | terraform_setting/lambda_function.py:85-88 | after a successful patch every path off both target fields reads as in the original template |
| Template.PatchFailure | terraform_setting/lambda_function.py:85-88 | a failed patch raises the exception of reading `OutputGroups[0].OutputGroupSettings.HlsGroupSettings` if that read fails, `TypeError` if it is not a dictionary, and otherwise the same two cases for `Inputs[0]` |
| Template.PatchSucceedsIff | terraform_setting/lambda_function.py:85-88 | the patch succeeds exactly when the template has a dictionary at `HlsGroupSettings` of the first output group and at the first input |
| S3Key.ParseKey | terraform_setting/lambda_function.py:20-39 | a key is refused as outside the prefix exactly when it does not start with `vod/`, and for too few segments exactly when it does but has fewer than two `/`; an accepted key has base folder `vod`, a `/`-free file name, and rejoins to itself |
| S3Key.AcceptedIff | terraform_setting/lambda_function.py:20-35 | a key is accepted exactly when it starts with `vod/` and another `/` follows the prefix |
| S3Key.EdgeKeys | terraform_setting/lambda_function.py:29-35 | `vod/x` is refused for too few segments; `vod//` is accepted with empty content path and file name |
| S3Key.ParseComposeKey | terraform_setting/lambda_function.py:37-39 | parsing the key composed from pieces (base `vod`, `/`-free file name, any content path) gives those pieces back |
| S3Key.MetadataOfKey | terraform_setting/lambda_function.py:67-73 | for an accepted key the base folder, content path and `/`-free file name are exactly the pieces the key parses into; the output path is the key minus the file's extension, hence a prefix of the key and equal to it when the name has no `.`; the stem is a prefix of the file name; the output extension is `.m3u8` |
| S3Key.Metadata | terraform_setting/lambda_function.py:67-73 | base folder, content path and file name are the key's pieces unchanged; the output path followed by the file extension is the composed key, so it is a prefix of it; the output extension is `.m3u8` |
| S3Key.HlsDestination | terraform_setting/lambda_function.py:84 | the HLS destination always ends in `/` and starts with `s3://<bucket>/<outputPath>` |
| S3Key.DestinationOfKey | terraform_setting/lambda_function.py:84 | for an accepted key the destination is `s3://<dest>/` followed by the key minus its extension and a trailing `/` |
| Handler.Render | terraform_setting/lambda_function.py:41 | a string bucket name is put into the source URI as it is |
| Handler.EventFailure | terraform_setting/lambda_function.py:45-51 | an exception from the event access becomes the 400 structure response naming the missing key exactly when it is a `KeyError`; any other escapes unchanged |
| Handler.ReadSource | terraform_setting/lambda_function.py:15-51 | an event is accepted exactly when both fields read, the key is a string and the decoded key parses; then the source key is the decoded key and its parse gives the source pieces; a failed bucket lookup, then a failed key lookup, is passed to the `KeyError` filter; a non-string key escapes as `AttributeError`; a string bucket name is kept verbatim; a refusal is a 400 without job id |
| Handler.ReadConfig | terraform_setting/lambda_function.py:54-64 | the configuration is read exactly when all three variables are set, with their values; otherwise the first absent variable, in lookup order, is named |
| Handler.JobSettings | terraform_setting/lambda_function.py:84-88 | the job settings carry `s3://<dest>/<outputPath>/` as destination and `s3://<src>/<key>` as file input, and exist exactly when the template has dictionaries at both target parents; every other path of the template reads as before |
| Handler.DiscoverEndpoint | terraform_setting/lambda_function.py:90-95 | endpoint discovery yields the first endpoint's URL exactly when the call and the read of `Endpoints[0].Url` succeed; a failed call gives a discovery failure with the call's detail, a failed read a reply failure with that read's exception |
| Handler.CreateJob | terraform_setting/lambda_function.py:97-103 | job creation yields `Job.Id` of the reply exactly when the call and that read succeed; a failed call gives a service failure with the call's detail, a failed read a reply failure with that read's exception |
| Handler.Submit | terraform_setting/lambda_function.py:79-113 | after validation the status is 200 or 500 with the fixed headers and a job id exactly on 200; a 200 carries the creation message; a malformed template gives the parse message; an unreadable template or a failed patch gives the generic creation message with that cause; every other 500 carries the generic creation message |
| Handler.Handle | terraform_setting/lambda_function.py:7-119 | every returned response has the fixed headers and status 200, 400 or 500, with `jobId` present exactly on 200; an exception escapes exactly when the first stage lets one through, and it is that exception, never a `KeyError` |
| Handler.OutsidePrefixRejected | terraform_setting/lambda_function.py:20-26 | a decoded key outside `vod/` yields the 400 prefix response whatever the environment, template and service |
| Handler.TooFewSegmentsRejected | terraform_setting/lambda_function.py:29-35 | a key under `vod/` splitting into fewer than three segments yields the 400 structure response |
| Handler.MissingEventFieldRejected | terraform_setting/lambda_function.py:45-51 | a missing event field yields a 400 naming the missing key, the bucket name being looked up first |
| Handler.RejectionIgnoresTheRest | terraform_setting/lambda_function.py:15-64 | when the first stage does not accept the event, the outcome is the same for every environment, template and service |
| Handler.StatusTellsStage | terraform_setting/lambda_function.py:15-119 | an exception escapes exactly when a lookup in the event raised something other than `KeyError` or the key is not a string; 400 exactly when the first stage refused; 500 only after the key was accepted |
| Handler.ConfigErrorOnlyAfterValidation | terraform_setting/lambda_function.py:54-64 | an environment error is a 500 reported only for a key under `vod/` with at least two `/`, and names an absent variable |
| Handler.EnvironmentErrorIs500 | terraform_setting/lambda_function.py:53-64 | an accepted event with a missing variable yields exactly the 500 environment response naming the first missing variable, without a job id |
| Handler.ValidRequestIsSubmitted | terraform_setting/lambda_function.py:53-119 | an accepted event with a complete environment is answered by the submission for the event's source and that configuration |
| Handler.TemplateParseErrorIs500 | terraform_setting/lambda_function.py:105-108 | after validation and configuration, a malformed template gives 500 with the parse message and no job id |
| Handler.ServiceFailureIs500 | terraform_setting/lambda_function.py:110-113 | after a successful patch, a failed endpoint discovery or URL read, or a failed `create_job` or id read, gives 500 with the generic creation message carrying that failure and no job id |
| Handler.SuccessfulJobGives200 | terraform_setting/lambda_function.py:97-103 | when the key, the configuration, the patch, endpoint discovery and job creation all succeed, the response is exactly 200 with the creation message and the service's job id |
| Handler.SuccessMeansJobSubmitted | terraform_setting/lambda_function.py:97-103 | a 200 means the key and configuration were accepted; the job was created with the configured role, the key's metadata, and settings whose destination is `s3://<dest>/<outputPath>/` and whose input is `s3://<src>/<key>`; the returned id is the service's, verbatim |

## Left out

- Logging (`print` of the event and of the metadata) and `json.dumps` of the
  response body: output only, with no effect on the result.
- `urllib.parse.unquote_plus` is a library percent-decoder. It is a
  function parameter (`Runtime.unquotePlus`).
- Python's `str()` of a bucket name that is not a JSON string is a
  function parameter (`Runtime.show`). A string bucket name is used as is.
- Opening and parsing `job.json` is file I/O and a library parser. It is an
  input: unreadable, malformed (the `JSONDecodeError` branch) or a document.
- `boto3.client`, `describe_endpoints` and `create_job` are network calls.
  They are function parameters returning a reply document or a failure.
  A failure to build the first client (line 90) counts as a failed endpoint
  discovery. A failure to build the second client (lines 93-95) counts as a
  failed `create_job`.
- The text of exception messages (`str(e)`) is not modelled. The message
  records which case occurred, the missing key or variable, and the
  failure detail the caller supplied.
- JSON numbers are integers in the model. A fractional number cannot be
  expressed. A numeric bucket name is rendered by `Runtime.show`, so the
  model does not fix how `str()` spells it (`1` against `1.0`).
- JsonValue.Store: an integer subscript assignment on a dictionary raises
  `TypeError` in the model, while Python would insert an integer key. The
  handler only ever assigns string keys into dictionaries.
- JsonValue.Subscript: list indices are non-negative. The handler only ever
  uses index 0.
- `project_root/terraform/node_lifecycle.js` is not part of this model. It
  is EC2 and `kubectl` calls with no logic of its own.

=== FILE: handler.dfy ===
/** The Lambda entry point: read bucket and key from the S3 event, validate
    and derive the job metadata, read the configuration, patch the job
    template, submit the MediaConvert job and pick the response. Everything
    outside the function (the event, the environment, the template file,
    the two MediaConvert calls, `unquote_plus`) is a parameter. */
module Handler {
  import opened Results
  import opened PyStr
  import opened JsonValue
  import opened S3Key
  import opened Template

  /** `event['Records'][0]['s3']['bucket']['name']` */
  const BucketNamePath: seq<Step> := [Key("Records"), Index(0), Key("s3"), Key("bucket"), Key("name")]
  /** `event['Records'][0]['s3']['object']['key']` */
  const ObjectKeyPath: seq<Step> := [Key("Records"), Index(0), Key("s3"), Key("object"), Key("key")]
  /** `endpoints['Endpoints'][0]['Url']` */
  const EndpointUrlPath: seq<Step> := [Key("Endpoints"), Index(0), Key("Url")]
  /** `job['Job']['Id']` */
  const JobIdPath: seq<Step> := [Key("Job"), Key("Id")]

  const DestinationVar: string := "DestinationBucket"
  const RoleVar: string := "MediaConvertRole"
  const RegionVar: string := "AWS_REGION"

  /** The JSON content type and the open CORS origin every response carries. */
  const Headers: map<string, string> :=
    map["Content-Type" := "application/json", "Access-Control-Allow-Origin" := "*"]

  /** What went wrong after validation, while creating the job. */
  datatype SubmitFailure =
    | TemplateUnreadable(detail: string)
    | PatchFailed(error: PyError)
    | EndpointDiscoveryFailed(detail: string)
    | ServiceFailed(detail: string)
    | MalformedReply(error: PyError)

  /** The `message` of the response body, by case. */
  datatype Message =
    | JobCreated
    | EventStructureError(missing: Step)
    | OutsideVodPrefix
    | BadPathStructure
    | EnvironmentError(variable: string)
    | TemplateParseError(detail: string)
    | JobCreationError(cause: SubmitFailure)

  datatype Body = Body(message: Message, jobId: Option<Json>)

  datatype Response = Response(statusCode: int, headers: map<string, string>, body: Body)

  /** A returned response, or an exception that escapes the handler. */
  datatype Outcome = Returned(response: Response) | Raised(error: PyError)

  /** Library behaviour taken as given: `urllib.parse.unquote_plus` on a
      string, and `str()` of a non-string bucket name inside an f-string. */
  datatype Runtime = Runtime(unquotePlus: string -> string, show: Json -> string)

  /** The three environment variables. */
  datatype Config = Config(destinationBucket: string, role: string, region: string)

  /** Reading and parsing `job.json`. */
  datatype TemplateFile = Unreadable(detail: string) | Malformed(detail: string) | Parsed(doc: Json)

  /** The arguments of `create_job`, with the client's region and endpoint. */
  datatype JobRequest = JobRequest(
    region: string,
    endpointUrl: Json,
    role: string,
    userMetadata: JobMetadata,
    settings: Json)

  /** The two MediaConvert calls: endpoint discovery for a region, and job
      creation; each returns the reply document or fails. */
  datatype MediaConvert = MediaConvert(
    describeEndpoints: string -> Result<Json, string>,
    createJob: JobRequest -> Result<Json, string>)

  /** An accepted source object. */
  datatype Source = Source(bucket: string, key: string, parts: KeyParts)

  /** The result of the first stage (event reading and key validation). */
  datatype Intake = Accepted(source: Source) | Rejected(response: Response) | Escaped(error: PyError)

  function Respond(status: int, message: Message, jobId: Option<Json>): Response
  {
    Response(status, Headers, Body(message, jobId))
  }

  /** The bucket name as an f-string renders it. */
  function Render(value: Json, rt: Runtime): (s: string)
    ensures value.JString? ==> s == value.str
  {
    if value.JString? then value.str else rt.show(value)
  }

  /** Only a `KeyError` is caught around the event access; every other
      exception leaves the handler. */
  function EventFailure(e: PyError): (r: Intake)
    ensures r.Rejected? <==> e.KeyError?
    ensures r.Rejected? ==> r.response == Respond(400, EventStructureError(e.missing), None)
    ensures !e.KeyError? ==> r == Escaped(e)
  {
    if e.KeyError? then Rejected(Respond(400, EventStructureError(e.missing), None))
    else Escaped(e)
  }

  /** Event reading and key validation. */
  function ReadSource(event: Json, rt: Runtime): (r: Intake)
    ensures r.Rejected? ==> r.response.statusCode == 400 && r.response.body.jobId == None
    ensures r.Escaped? ==> !r.error.KeyError?
    ensures Get(event, BucketNamePath).Err? ==> r == EventFailure(Get(event, BucketNamePath).error)
    ensures Get(event, BucketNamePath).Ok? && Get(event, ObjectKeyPath).Err?
            ==> r == EventFailure(Get(event, ObjectKeyPath).error)
    ensures Get(event, BucketNamePath).Ok? && Get(event, ObjectKeyPath).Ok? && !Get(event, ObjectKeyPath).value.JString?
            ==> r == Escaped(AttributeError)
    ensures r.Accepted? <==>
      && Get(event, BucketNamePath).Ok?
      && Get(event, ObjectKeyPath).Ok? && Get(event, ObjectKeyPath).value.JString?
      && ParseKey(rt.unquotePlus(Get(event, ObjectKeyPath).value.str)).Ok?
    ensures r.Accepted? ==>
      && Get(event, BucketNamePath).Ok?
      && r.source.bucket == Render(Get(event, BucketNamePath).value, rt)
      && Get(event, ObjectKeyPath).Ok? && Get(event, ObjectKeyPath).value.JString?
      && r.source.key == rt.unquotePlus(Get(event, ObjectKeyPath).value.str)
      && ParseKey(r.source.key) == Ok(r.source.parts)
    ensures r.Accepted? && Get(event, BucketNamePath).value.JString?
            ==> r.source.bucket == Get(event, BucketNamePath).value.str
  {
    match Get(event, BucketNamePath)
    case Err(e) => EventFailure(e)
    case Ok(bucket) =>
      match Get(event, ObjectKeyPath)
      case Err(e) => EventFailure(e)
      case Ok(rawKey) =>
        if !rawKey.JString? then Escaped(AttributeError)
        else
          var key := rt.unquotePlus(rawKey.str);
          match ParseKey(key)
          case Err(OutsidePrefix) => Rejected(Respond(400, OutsideVodPrefix, None))
          case Err(TooFewSegments) => Rejected(Respond(400, BadPathStructure, None))
          case Ok(parts) => Accepted(Source(Render(bucket, rt), key, parts))
  }

  /** The environment lookups, in order; the first missing variable is named. */
  function ReadConfig(env: map<string, string>): (r: Result<Config, string>)
    ensures r.Ok? <==> DestinationVar in env && RoleVar in env && RegionVar in env
    ensures r.Ok? ==> && r.value.destinationBucket == env[DestinationVar]
                      && r.value.role == env[RoleVar]
                      && r.value.region == env[RegionVar]
    ensures r.Err? ==> && r.error !in env
                       && r.error in {DestinationVar, RoleVar, RegionVar}
                       && (r.error != DestinationVar ==> DestinationVar in env)
                       && (r.error == RegionVar ==> RoleVar in env)
  {
    if DestinationVar !in env then Err(DestinationVar)
    else if RoleVar !in env then Err(RoleVar)
    else if RegionVar !in env then Err(RegionVar)
    else Ok(Config(env[DestinationVar], env[RoleVar], env[RegionVar]))
  }

  /** The template with this request's destination and input written in. */
  function JobSettings(src: Source, cfg: Config, doc: Json): (r: Result<Json, PyError>)
    ensures r.Ok? ==> Get(r.value, DestinationPath)
                      == Ok(JString("s3://" + cfg.destinationBucket + "/" + Metadata(src.parts).outputPath + "/"))
    ensures r.Ok? ==> Get(r.value, FileInputPath) == Ok(JString("s3://" + src.bucket + "/" + src.key))
    ensures r.Ok? <==> && Get(doc, DestinationPath[..4]).Ok? && Get(doc, DestinationPath[..4]).value.JObject?
                       && Get(doc, FileInputPath[..2]).Ok? && Get(doc, FileInputPath[..2]).value.JObject?
    ensures r.Ok? ==> forall q :: Diverge(DestinationPath, q) && Diverge(FileInputPath, q) ==> Get(r.value, q) == Get(doc, q)
  {
    var destination := HlsDestination(cfg.destinationBucket, Metadata(src.parts).outputPath);
    var input := S3Uri(src.bucket, src.key);
    PatchSucceedsIff(doc, destination, input);
    PatchFrame(doc, destination, input);
    Patch(doc, destination, input)
  }

  /** `describe_endpoints` and the read of the first endpoint's URL; a
      failed call or a reply without that URL is a creation error. */
  function DiscoverEndpoint(mc: MediaConvert, region: string): (r: Result<Json, SubmitFailure>)
    ensures r.Ok? <==> mc.describeEndpoints(region).Ok? && Get(mc.describeEndpoints(region).value, EndpointUrlPath).Ok?
    ensures r.Ok? ==> r.value == Get(mc.describeEndpoints(region).value, EndpointUrlPath).value
    ensures mc.describeEndpoints(region).Err?
            ==> r == Err(EndpointDiscoveryFailed(mc.describeEndpoints(region).error))
    ensures mc.describeEndpoints(region).Ok? && Get(mc.describeEndpoints(region).value, EndpointUrlPath).Err?
            ==> r == Err(MalformedReply(Get(mc.describeEndpoints(region).value, EndpointUrlPath).error))
  {
    match mc.describeEndpoints(region)
    case Err(d) => Err(EndpointDiscoveryFailed(d))
    case Ok(endpoints) =>
      match Get(endpoints, EndpointUrlPath)
      case Err(e) => Err(MalformedReply(e))
      case Ok(url) => Ok(url)
  }

  /** `create_job` and the read of the new job's id; a failed call or a
      reply without that id is a creation error. */
  function CreateJob(mc: MediaConvert, request: JobRequest): (r: Result<Json, SubmitFailure>)
    ensures r.Ok? <==> mc.createJob(request).Ok? && Get(mc.createJob(request).value, JobIdPath).Ok?
    ensures r.Ok? ==> r.value == Get(mc.createJob(request).value, JobIdPath).value
    ensures mc.createJob(request).Err? ==> r == Err(ServiceFailed(mc.createJob(request).error))
    ensures mc.createJob(request).Ok? && Get(mc.createJob(request).value, JobIdPath).Err?
            ==> r == Err(MalformedReply(Get(mc.createJob(request).value, JobIdPath).error))
  {
    match mc.createJob(request)
    case Err(d) => Err(ServiceFailed(d))
    case Ok(job) =>
      match Get(job, JobIdPath)
      case Err(e) => Err(MalformedReply(e))
      case Ok(id) => Ok(id)
  }

  function Failed(cause: SubmitFailure): Response
  {
    Respond(500, JobCreationError(cause), None)
  }

  /** Template loading, patching and job submission; a parse error has its
      own message, every other exception the generic one. */
  function Submit(src: Source, cfg: Config, file: TemplateFile, mc: MediaConvert): (r: Response)
    ensures r.statusCode == 200 || r.statusCode == 500
    ensures r.body.jobId.Some? <==> r.statusCode == 200
    ensures r.headers == Headers
    ensures r.statusCode == 200 ==> r.body.message == JobCreated && file.Parsed?
    ensures file.Malformed? ==> r == Respond(500, TemplateParseError(file.detail), None)
    ensures r.statusCode == 500 && !file.Malformed? ==> r.body.message.JobCreationError? && r.body.jobId == None
    ensures file.Unreadable? ==> r == Failed(TemplateUnreadable(file.detail))
    ensures file.Parsed? && JobSettings(src, cfg, file.doc).Err?
            ==> r == Failed(PatchFailed(JobSettings(src, cfg, file.doc).error))
  {
    match file
    case Unreadable(d) => Failed(TemplateUnreadable(d))
    case Malformed(d) => Respond(500, TemplateParseError(d), None)
    case Parsed(doc) =>
      match JobSettings(src, cfg, doc)
      case Err(e) => Failed(PatchFailed(e))
      case Ok(settings) =>
        match DiscoverEndpoint(mc, cfg.region)
        case Err(f) => Failed(f)
        case Ok(url) =>
          match CreateJob(mc, JobRequest(cfg.region, url, cfg.role, Metadata(src.parts), settings))
          case Err(f) => Failed(f)
          case Ok(id) => Respond(200, JobCreated, Some(id))
  }

  /** The handler. Every returned response carries the fixed headers, has
      status 200, 400 or 500, and has a `jobId` exactly when it is 200. */
  function Handle(event: Json, env: map<string, string>, file: TemplateFile, mc: MediaConvert, rt: Runtime): (o: Outcome)
    ensures o.Returned? ==> o.response.headers == Headers
    ensures o.Returned? ==> o.response.statusCode in {200, 400, 500}
    ensures o.Returned? ==> (o.response.body.jobId.Some? <==> o.response.statusCode == 200)
    ensures o.Raised? ==> !o.error.KeyError?
    ensures o.Raised? <==> ReadSource(event, rt).Escaped?
    ensures ReadSource(event, rt).Escaped? ==> o == Raised(ReadSource(event, rt).error)
  {
    match ReadSource(event, rt)
    case Escaped(e) => Raised(e)
    case Rejected(response) => Returned(response)
    case Accepted(src) =>
      match ReadConfig(env)
      case Err(name) => Returned(Respond(500, EnvironmentError(name), None))
      case Ok(cfg) => Returned(Submit(src, cfg, file, mc))
  }

  /** An accepted event with a missing environment variable is answered
      with 500 naming the first missing variable; the template and the
      service are not consulted. */
  lemma EnvironmentErrorIs500(event: Json, env: map<string, string>, file: TemplateFile, mc: MediaConvert, rt: Runtime)
    requires ReadSource(event, rt).Accepted?
    requires ReadConfig(env).Err?
    ensures Handle(event, env, file, mc, rt) == Returned(Respond(500, EnvironmentError(ReadConfig(env).error), None))
  {
  }

  /** An accepted event with a complete environment is answered by the job
      submission for that source and configuration. */
  lemma ValidRequestIsSubmitted(event: Json, env: map<string, string>, file: TemplateFile, mc: MediaConvert, rt: Runtime)
    requires ReadSource(event, rt).Accepted?
    requires ReadConfig(env).Ok?
    ensures Handle(event, env, file, mc, rt)
            == Returned(Submit(ReadSource(event, rt).source, ReadConfig(env).value, file, mc))
  {
  }

  /** A decoded key outside `vod/` is refused with 400, whatever the
      environment, the template or the service would have done. */
  lemma OutsidePrefixRejected(event: Json, env: map<string, string>, file: TemplateFile, mc: MediaConvert, rt: Runtime, rawKey: string)
    requires Get(event, BucketNamePath).Ok?
    requires Get(event, ObjectKeyPath) == Ok(JString(rawKey))
    requires !(Prefix <= rt.unquotePlus(rawKey))
    ensures Handle(event, env, file, mc, rt) == Returned(Respond(400, OutsideVodPrefix, None))
  {
  }

  /** A decoded key under `vod/` with fewer than two `/` (fewer than three
      segments) is refused with 400, whatever else holds. */
  lemma TooFewSegmentsRejected(event: Json, env: map<string, string>, file: TemplateFile, mc: MediaConvert, rt: Runtime, rawKey: string)
    requires Get(event, BucketNamePath).Ok?
    requires Get(event, ObjectKeyPath) == Ok(JString(rawKey))
    requires Prefix <= rt.unquotePlus(rawKey)
    requires |Split(rt.unquotePlus(rawKey), '/')| < 3
    ensures Handle(event, env, file, mc, rt) == Returned(Respond(400, BadPathStructure, None))
  {
  }

  /** A missing event field is a 400 naming the missing key, and the bucket
      name is looked up before the object key. */
  lemma MissingEventFieldRejected(event: Json, env: map<string, string>, file: TemplateFile, mc: MediaConvert, rt: Runtime, missing: Step)
    requires Get(event, BucketNamePath) == Err(KeyError(missing))
          || (Get(event, BucketNamePath).Ok? && Get(event, ObjectKeyPath) == Err(KeyError(missing)))
    ensures Handle(event, env, file, mc, rt) == Returned(Respond(400, EventStructureError(missing), None))
  {
  }

  /** The outcome of an event the first stage does not accept depends on the
      event alone: the environment, the template and the service are never
      consulted, so no job is created. */
  lemma RejectionIgnoresTheRest(
    event: Json, rt: Runtime,
    env1: map<string, string>, file1: TemplateFile, mc1: MediaConvert,
    env2: map<string, string>, file2: TemplateFile, mc2: MediaConvert)
    requires !ReadSource(event, rt).Accepted?
    ensures Handle(event, env1, file1, mc1, rt) == Handle(event, env2, file2, mc2, rt)
  {
  }

  /** The checks run in a fixed order, so the status tells how far the event
      got: an exception escapes exactly when a lookup in the event raised
      something other than `KeyError` or the key is not a string; 400
      exactly when the first stage refused the event; 500 only for an
      accepted key. */
  lemma StatusTellsStage(event: Json, env: map<string, string>, file: TemplateFile, mc: MediaConvert, rt: Runtime)
    ensures var o := Handle(event, env, file, mc, rt);
      && (o.Raised? <==> ReadSource(event, rt).Escaped?)
      && (o.Raised? <==>
          || (Get(event, BucketNamePath).Err? && !Get(event, BucketNamePath).error.KeyError?)
          || (Get(event, BucketNamePath).Ok? && Get(event, ObjectKeyPath).Err?
              && !Get(event, ObjectKeyPath).error.KeyError?)
          || (Get(event, BucketNamePath).Ok? && Get(event, ObjectKeyPath).Ok?
              && !Get(event, ObjectKeyPath).value.JString?))
      && (o.Returned? && o.response.statusCode == 400 <==> ReadSource(event, rt).Rejected?)
      && (o.Returned? && o.response.statusCode == 500 ==> ReadSource(event, rt).Accepted?)
  {
  }

  /** A missing environment variable is reported only for a key that passed
      validation, and names a variable that is absent. */
  lemma ConfigErrorOnlyAfterValidation(event: Json, env: map<string, string>, file: TemplateFile, mc: MediaConvert, rt: Runtime)
    ensures
      var o := Handle(event, env, file, mc, rt);
      o.Returned? && o.response.body.message.EnvironmentError? ==>
      && ReadSource(event, rt).Accepted?
      && Prefix <= ReadSource(event, rt).source.key
      && Count(ReadSource(event, rt).source.key, '/') >= 2
      && o.response.statusCode == 500
      && o.response.body.message.variable !in env
  {
  }

  /** Once the key and configuration are good, an unparsable template gives
      500 with the parse message and no job id. */
  lemma TemplateParseErrorIs500(event: Json, env: map<string, string>, detail: string, mc: MediaConvert, rt: Runtime)
    requires ReadSource(event, rt).Accepted?
    requires ReadConfig(env).Ok?
    ensures Handle(event, env, Malformed(detail), mc, rt) == Returned(Respond(500, TemplateParseError(detail), None))
  {
  }

  /** Once the template is patched, any failure of the service calls or of
      reading their replies gives 500 with the generic creation message
      carrying that failure, and no job id. */
  lemma ServiceFailureIs500(event: Json, env: map<string, string>, doc: Json, mc: MediaConvert, rt: Runtime)
    ensures
      && ReadSource(event, rt).Accepted?
      && ReadConfig(env).Ok?
      && JobSettings(ReadSource(event, rt).source, ReadConfig(env).value, doc).Ok?
      ==>
      var src := ReadSource(event, rt).source;
      var endpoint := DiscoverEndpoint(mc, env[RegionVar]);
      var o := Handle(event, env, Parsed(doc), mc, rt);
      && (endpoint.Err? ==> o == Returned(Failed(endpoint.error)))
      && (endpoint.Ok? ==>
          var job := CreateJob(mc, JobRequest(env[RegionVar], endpoint.value, env[RoleVar], Metadata(src.parts),
                                              JobSettings(src, ReadConfig(env).value, doc).value));
          job.Err? ==> o == Returned(Failed(job.error)))
  {
  }

  /** The converse of the next lemma: when the key and configuration are
      good, the template patches, and both service calls and both reply
      reads succeed, the response is 200 with the service's job id. */
  lemma SuccessfulJobGives200(event: Json, env: map<string, string>, doc: Json, mc: MediaConvert, rt: Runtime)
    ensures
      && ReadSource(event, rt).Accepted?
      && ReadConfig(env).Ok?
      && JobSettings(ReadSource(event, rt).source, ReadConfig(env).value, doc).Ok?
      && DiscoverEndpoint(mc, env[RegionVar]).Ok?
      ==>
      var src := ReadSource(event, rt).source;
      var request := JobRequest(env[RegionVar], DiscoverEndpoint(mc, env[RegionVar]).value, env[RoleVar],
                                Metadata(src.parts), JobSettings(src, ReadConfig(env).value, doc).value);
      CreateJob(mc, request).Ok? ==>
      Handle(event, env, Parsed(doc), mc, rt) == Returned(Respond(200, JobCreated, Some(CreateJob(mc, request).value)))
  {
  }

  /** A 200 means the job was submitted as designed: the key was accepted,
      the configured role and the key's metadata went with it, the settings
      carry the destination folder and the input object in their two
      fields, and the job id is the one the service returned, verbatim. */
  lemma SuccessMeansJobSubmitted(event: Json, env: map<string, string>, file: TemplateFile, mc: MediaConvert, rt: Runtime)
    ensures
      var o := Handle(event, env, file, mc, rt);
      o.Returned? && o.response.statusCode == 200 ==>
      && ReadSource(event, rt).Accepted? && ReadConfig(env).Ok? && file.Parsed?
      && var src := ReadSource(event, rt).source;
      var cfg := ReadConfig(env).value;
      var settings := JobSettings(src, cfg, file.doc);
      && ParseKey(src.key).Ok?
      && settings.Ok?
      && Get(settings.value, DestinationPath)
         == Ok(JString("s3://" + env[DestinationVar] + "/" + Metadata(src.parts).outputPath + "/"))
      && Get(settings.value, FileInputPath) == Ok(JString("s3://" + src.bucket + "/" + src.key))
      && mc.describeEndpoints(env[RegionVar]).Ok?
      && Get(mc.describeEndpoints(env[RegionVar]).value, EndpointUrlPath).Ok?
      && var request := JobRequest(
           env[RegionVar],
           Get(mc.describeEndpoints(env[RegionVar]).value, EndpointUrlPath).value,
           env[RoleVar],
           Metadata(src.parts),
           settings.value);
         && mc.createJob(request).Ok?
         && Get(mc.createJob(request).value, JobIdPath).Ok?
         && o.response.body == Body(JobCreated, Some(Get(mc.createJob(request).value, JobIdPath).value))
  {
  }
}

=== FILE: json.dfy ===
/** A parsed JSON document as Python holds it after `json.load` (dicts,
    lists, strings, numbers, booleans, `None`), and the behaviour of Python
    subscripting on it: reading `x[k]` and assigning `x[k] = v`, including
    which exception each failure raises. */
module JsonValue {
  import opened Results

  datatype Json =
    | JNull
    | JBool(b: bool)
    | JNumber(n: int)
    | JString(str: string)
    | JArray(items: seq<Json>)
    | JObject(fields: map<string, Json>)
  {
    /** Values that support item assignment. */
    predicate IsContainer() { JArray? || JObject? }
  }

  /** One subscript: a dictionary key or a list index. */
  datatype Step = Key(name: string) | Index(i: nat)

  /** The Python exceptions a subscript (or `unquote_plus` on a non-string)
      can raise; `KeyError` remembers the missing key. */
  datatype PyError = KeyError(missing: Step) | IndexError | TypeError | AttributeError

  /** Reading `j[s]`. A dictionary has only string keys, so an integer
      subscript on it is a `KeyError`; indexing a string yields a
      one-character string. */
  function Subscript(j: Json, s: Step): (r: Result<Json, PyError>)
    ensures r.Ok? <==> || (s.Key? && j.JObject? && s.name in j.fields)
                       || (s.Index? && j.JArray? && s.i < |j.items|)
                       || (s.Index? && j.JString? && s.i < |j.str|)
    ensures r.Err? && r.error.KeyError? <==> j.JObject? && !(s.Key? && s.name in j.fields)
    ensures r.Err? && r.error.KeyError? ==> r.error.missing == s
    ensures r.Err? && r.error.IndexError? <==> s.Index? && (j.JArray? || j.JString?) && !r.Ok?
    ensures r.Err? ==> !r.error.AttributeError?
    ensures r.Ok? && s.Key? ==> r.value == j.fields[s.name]
    ensures r.Ok? && s.Index? && j.JArray? ==> r.value == j.items[s.i]
    ensures r.Ok? && s.Index? && j.JString? ==> r.value == JString([j.str[s.i]])
  {
    match s
    case Key(k) =>
      if !j.JObject? then Err(TypeError)
      else if k in j.fields then Ok(j.fields[k])
      else Err(KeyError(s))
    case Index(i) =>
      match j
      case JArray(a) => if i < |a| then Ok(a[i]) else Err(IndexError)
      case JString(t) => if i < |t| then Ok(JString([t[i]])) else Err(IndexError)
      case JObject(_) => Err(KeyError(s))
      case _ => Err(TypeError)
  }

  /** Assigning `j[s] = v`: a dictionary gains or overwrites the key, a list
      overwrites an existing position; anything else cannot be assigned. */
  function Store(j: Json, s: Step, v: Json): (r: Result<Json, PyError>)
    ensures r.Ok? <==> j.IsContainer() && (s.Key? <==> j.JObject?) && (j.JArray? ==> s.i < |j.items|)
  {
    match s
    case Key(k) =>
      if j.JObject? then Ok(JObject(j.fields[k := v])) else Err(TypeError)
    case Index(i) =>
      if !j.JArray? then Err(TypeError)
      else if i < |j.items| then Ok(JArray(j.items[i := v]))
      else Err(IndexError)
  }

  /** Reading a chain `j[p0][p1]...`: the first failing subscript decides. */
  function Get(j: Json, path: seq<Step>): (r: Result<Json, PyError>)
    ensures r.Err? && r.error.KeyError? ==> r.error.missing in path
    ensures r.Err? ==> path != [] && !r.error.AttributeError?
    decreases |path|
  {
    if path == [] then Ok(j)
    else match Subscript(j, path[0])
      case Err(e) => Err(e)
      case Ok(c) => Get(c, path[1..])
  }

  /** Reading a path reads its parent, then subscripts the parent with the
      last step; a failure on the way to the parent is the failure of the
      whole read. */
  lemma {:induction false} GetLast(j: Json, path: seq<Step>)
    requires |path| >= 1
    ensures Get(j, path) == match Get(j, path[..|path| - 1])
                            case Ok(parent) => Subscript(parent, path[|path| - 1])
                            case Err(e) => Err(e)
    decreases |path|
  {
    var n := |path|;
    if n == 1 {
      assert path[..0] == [];
    } else {
      assert path[..n - 1][0] == path[0] && path[..n - 1][1..] == path[1..][..n - 2];
      assert path[1..][n - 2] == path[n - 1];
      match Subscript(j, path[0])
      case Err(e) =>
      case Ok(c) => GetLast(c, path[1..]);
    }
  }

  /** The statement `j[p0]...[pn-1] = v`: read down to the parent, then
      assign into it. The empty path replaces the whole document. */
  function SetPath(j: Json, path: seq<Step>, v: Json): (r: Result<Json, PyError>)
    ensures r.Ok? && |path| >= 1 ==> j.IsContainer() && r.value.JObject? == j.JObject? && r.value.JArray? == j.JArray?
    ensures r.Err? ==> !r.error.AttributeError?
    decreases |path|
  {
    if path == [] then Ok(v)
    else if |path| == 1 then Store(j, path[0], v)
    else match Subscript(j, path[0])
      case Err(e) => Err(e)
      case Ok(c) =>
        match SetPath(c, path[1..], v)
        case Err(e) => Err(e)
        case Ok(c') => Store(j, path[0], c')
  }

  /** Two paths address disjoint parts of a document once they name
      different subscripts at the same depth. */
  predicate Diverge(p: seq<Step>, q: seq<Step>)
  {
    exists i :: 0 <= i < |p| && i < |q| && p[i] != q[i]
  }

  /** After an assignment the assigned subscript reads back the new value. */
  lemma SubscriptAfterStore(j: Json, s: Step, v: Json, r: Json)
    requires Store(j, s, v) == Ok(r)
    ensures Subscript(r, s) == Ok(v)
  {
  }

  /** An assignment leaves every other subscript as it was. */
  lemma StoreFrame(j: Json, s: Step, v: Json, r: Json, t: Step)
    requires Store(j, s, v) == Ok(r)
    requires t != s
    ensures Subscript(r, t) == Subscript(j, t)
  {
  }

  /** A non-empty assignment only succeeds on a list or a dictionary. */
  lemma SetPathNeedsContainer(j: Json, path: seq<Step>, v: Json)
    requires |path| >= 1
    requires SetPath(j, path, v).Ok?
    ensures j.IsContainer()
  {
  }

  /** Reading the assigned path gives back the assigned value. */
  lemma {:induction false} GetAfterSetPath(j: Json, path: seq<Step>, v: Json, r: Json)
    requires SetPath(j, path, v) == Ok(r)
    ensures Get(r, path) == Ok(v)
    decreases |path|
  {
    if |path| == 1 {
      SubscriptAfterStore(j, path[0], v, r);
    } else if |path| > 1 {
      var c := Subscript(j, path[0]).value;
      var c' := SetPath(c, path[1..], v).value;
      GetAfterSetPath(c, path[1..], v, c');
      SubscriptAfterStore(j, path[0], c', r);
    }
  }

  /** Every path that diverges from the assigned one reads the same before
      and after the assignment: nothing else in the document changes. */
  lemma {:induction false} SetPathFrame(j: Json, p: seq<Step>, v: Json, r: Json, q: seq<Step>)
    requires SetPath(j, p, v) == Ok(r)
    requires Diverge(p, q)
    ensures Get(r, q) == Get(j, q)
    decreases |p|
  {
    var i :| 0 <= i < |p| && i < |q| && p[i] != q[i];
    if |p| == 1 {
      StoreFrame(j, p[0], v, r, q[0]);
    } else {
      var c := Subscript(j, p[0]).value;
      var c' := SetPath(c, p[1..], v).value;
      if p[0] != q[0] {
        StoreFrame(j, p[0], c', r, q[0]);
      } else {
        assert p[1..][i - 1] != q[1..][i - 1];
        SetPathFrame(c, p[1..], v, c', q[1..]);
        SubscriptAfterStore(j, p[0], c', r);
      }
    }
  }

  /** An assignment succeeds exactly when the parent of the target reads
      successfully and accepts an item assignment at the last subscript. */
  lemma {:induction false} SetPathSucceedsIff(j: Json, path: seq<Step>, v: Json)
    requires |path| >= 1
    ensures SetPath(j, path, v).Ok?
        <==> Get(j, path[..|path| - 1]).Ok? && Store(Get(j, path[..|path| - 1]).value, path[|path| - 1], v).Ok?
    decreases |path|
  {
    var n := |path|;
    if n == 1 {
      assert path[..0] == [];
    } else {
      var parent := path[..n - 1];
      assert parent[0] == path[0] && parent[1..] == path[1..][..n - 2];
      assert path[1..][n - 2] == path[n - 1];
      match Subscript(j, path[0])
      case Err(e) =>
      case Ok(c) =>
        SetPathSucceedsIff(c, path[1..], v);
        if SetPath(c, path[1..], v).Ok? {
          SetPathNeedsContainer(c, path[1..], v);
          // A string subscript yields a string, which holds no container,
          // so the parent here is a list or a dictionary.
          assert j.IsContainer();
        }
    }
  }

  /** A failed write raises what reading the parent raises; when the parent
      is reached, it raises what the final subscript assignment raises. */
  lemma {:induction false} SetPathFailure(j: Json, path: seq<Step>, v: Json)
    requires |path| >= 1
    ensures SetPath(j, path, v).Err? ==>
      SetPath(j, path, v) == match Get(j, path[..|path| - 1])
                             case Err(e) => Err(e)
                             case Ok(p) => Store(p, path[|path| - 1], v)
    decreases |path|
  {
    var n := |path|;
    if n == 1 {
      assert path[..0] == [];
    } else {
      var parent := path[..n - 1];
      assert parent[0] == path[0] && parent[1..] == path[1..][..n - 2];
      assert path[1..][n - 2] == path[n - 1];
      match Subscript(j, path[0])
      case Err(e) =>
      case Ok(c) =>
        SetPathFailure(c, path[1..], v);
        if SetPath(c, path[1..], v).Ok? {
          SetPathNeedsContainer(c, path[1..], v);
          assert j.IsContainer();
        }
    }
  }
}

=== FILE: pystr.dfy ===
/** The Python `str` operations the handler relies on (`split`, `join`,
    `startswith`, `rfind`, `count`) and POSIX `os.path.splitext`, on
    strings as sequences of characters. */
module PyStr {

  /** Number of occurrences of `c` in `s` (Python `s.count(c)`). */
  function Count(s: string, c: char): nat
  {
    if s == [] then 0 else (if s[0] == c then 1 else 0) + Count(s[1..], c)
  }

  lemma {:induction false} CountConcat(a: string, b: string, c: char)
    ensures Count(a + b, c) == Count(a, c) + Count(b, c)
    decreases |a|
  {
    if a == [] {
      assert a + b == b;
    } else {
      assert (a + b)[1..] == a[1..] + b;
      CountConcat(a[1..], b, c);
    }
  }

  /** No occurrence at all exactly when the count is zero. */
  lemma {:induction false} CountZero(s: string, c: char)
    ensures Count(s, c) == 0 <==> c !in s
    decreases |s|
  {
    if s != [] {
      CountZero(s[1..], c);
      assert s == [s[0]] + s[1..];
    }
  }

  /** `sep.join(parts)`: the parts with one separator between neighbours. */
  function Join(parts: seq<string>, sep: char): (s: string)
    ensures |parts| >= 1 ==> parts[0] <= s
    ensures |parts| >= 1 && SeparatorFree(parts, sep) ==> Count(s, sep) == |parts| - 1
    decreases |parts|
  {
    if |parts| == 0 then ""
    else if |parts| == 1 then
      CountZero(parts[0], sep);
      parts[0]
    else
      var rest := Join(parts[1..], sep);
      assert |parts| >= 1 && SeparatorFree(parts, sep) ==> SeparatorFree(parts[1..], sep) && sep !in parts[0] by {
        if SeparatorFree(parts, sep) {
          forall i | 0 <= i < |parts[1..]| ensures sep !in parts[1..][i] {
            assert parts[1..][i] == parts[i + 1];
          }
        }
      }
      CountConcat(parts[0] + [sep], rest, sep);
      CountConcat(parts[0], [sep], sep);
      CountZero(parts[0], sep);
      assert Count([sep], sep) == 1;
      parts[0] + [sep] + rest
  }

  /** No part contains the separator. */
  predicate SeparatorFree(parts: seq<string>, sep: char)
  {
    forall i :: 0 <= i < |parts| ==> sep !in parts[i]
  }

  /** `s.split(sep)`: one more segment than there are separators, no
      segment holds the separator, and joining the segments gives `s`
      back. Empty segments are kept (`"a//b"` has three). */
  function Split(s: string, sep: char): (parts: seq<string>)
    ensures |parts| == Count(s, sep) + 1
    ensures SeparatorFree(parts, sep)
    ensures Join(parts, sep) == s
    decreases |s|
  {
    if s == [] then [""]
    else
      var rest := Split(s[1..], sep);
      if s[0] == sep then
        assert s == [sep] + s[1..];
        [""] + rest
      else
        assert s == [s[0]] + s[1..];
        [[s[0]] + rest[0]] + rest[1..]
  }

  /** Splitting a string that has no separator yields the string alone. */
  lemma {:induction false} SplitNoSeparator(p: string, sep: char)
    requires sep !in p
    ensures Split(p, sep) == [p]
  {
  }

  /** A leading separator-free segment followed by the separator comes out
      as the first part. */
  lemma {:induction false} SplitAfterSegment(p: string, sep: char, s: string)
    requires sep !in p
    ensures Split(p + [sep] + s, sep) == [p] + Split(s, sep)
    decreases |p|
  {
    var whole := p + [sep] + s;
    if p == [] {
      assert whole[1..] == s;
    } else {
      assert whole[1..] == p[1..] + [sep] + s;
      SplitAfterSegment(p[1..], sep, s);
      assert [p[0]] + p[1..] == p;
    }
  }

  /** A trailing separator-free segment after the separator comes out as
      the last part. */
  lemma {:induction false} SplitBeforeSegment(s: string, sep: char, f: string)
    requires sep !in f
    ensures Split(s + [sep] + f, sep) == Split(s, sep) + [f]
    decreases |s|
  {
    var whole := s + [sep] + f;
    if s == [] {
      assert whole == [sep] + f && whole[1..] == f;
      SplitNoSeparator(f, sep);
    } else {
      assert whole[1..] == s[1..] + [sep] + f;
      SplitBeforeSegment(s[1..], sep, f);
    }
  }

  /** `split` undoes `join` on separator-free parts: the two are inverse. */
  lemma {:induction false} SplitJoin(parts: seq<string>, sep: char)
    requires |parts| >= 1
    requires SeparatorFree(parts, sep)
    ensures Split(Join(parts, sep), sep) == parts
    decreases |parts|
  {
    if |parts| == 1 {
      SplitNoSeparator(parts[0], sep);
    } else {
      assert sep !in parts[0];
      SplitAfterSegment(parts[0], sep, Join(parts[1..], sep));
      assert SeparatorFree(parts[1..], sep) by {
        forall i | 0 <= i < |parts[1..]| ensures sep !in parts[1..][i] {
          assert parts[1..][i] == parts[i + 1];
        }
      }
      SplitJoin(parts[1..], sep);
      assert [parts[0]] + parts[1..] == parts;
    }
  }

  /** Joining with one more part appends a separator and that part. */
  lemma {:induction false} JoinSnoc(parts: seq<string>, sep: char, last: string)
    requires |parts| >= 1
    ensures Join(parts + [last], sep) == Join(parts, sep) + [sep] + last
    decreases |parts|
  {
    if |parts| == 1 {
      assert (parts + [last])[1..] == [last];
    } else {
      assert (parts + [last])[1..] == parts[1..] + [last];
      JoinSnoc(parts[1..], sep, last);
    }
  }

  /** With at least three parts, the join is first part, separator, the
      joined middle, separator, last part. */
  lemma JoinFirstMiddleLast(parts: seq<string>, sep: char)
    requires |parts| >= 3
    ensures Join(parts, sep)
         == parts[0] + [sep] + Join(parts[1..|parts| - 1], sep) + [sep] + parts[|parts| - 1]
  {
    var n := |parts|;
    assert parts[1..] == parts[1..n - 1] + [parts[n - 1]];
    JoinSnoc(parts[1..n - 1], sep, parts[n - 1]);
  }

  /** `s.rfind(c)`: the index of the last `c` in `s`, or -1 when there is none. */
  function RFind(s: string, c: char): (i: int)
    ensures -1 <= i < |s|
    ensures 0 <= i ==> s[i] == c
    ensures forall k :: i < k < |s| ==> s[k] != c
  {
    if s == [] then -1
    else if s[|s| - 1] == c then |s| - 1
    else RFind(s[..|s| - 1], c)
  }

  /** The extension rule of `os.path.splitext` on POSIX: the last `.` counts
      only if it lies in the final path component and some character of that
      component before it is not a `.` (so `.bashrc` and `..` have none). */
  predicate HasExtension(p: string)
  {
    var sepIndex := RFind(p, '/');
    var dotIndex := RFind(p, '.');
    sepIndex < dotIndex && exists k :: sepIndex < k < dotIndex && p[k] != '.'
  }

  /** `os.path.splitext(p)` as `(root, ext)`: the two pieces rebuild `p`, and
      a non-empty extension is one `.` followed by neither `.` nor `/`. */
  function SplitExt(p: string): (r: (string, string))
    ensures r.0 + r.1 == p
    ensures r.1 == [] <==> !HasExtension(p)
    ensures r.1 != [] ==> r.1[0] == '.' && '.' !in r.1[1..] && '/' !in r.1
  {
    if HasExtension(p) then
      var dotIndex := RFind(p, '.');
      (p[..dotIndex], p[dotIndex..])
    else (p, [])
  }

  /** The scan CPython's `genericpath._splitext` performs: walk past the
      leading dots of the final component; the first other character before
      the last `.` makes that `.` start the extension. */
  method SplitExtScan(p: string) returns (root: string, ext: string)
    ensures (root, ext) == SplitExt(p)
  {
    var sepIndex := RFind(p, '/');
    var dotIndex := RFind(p, '.');
    if dotIndex > sepIndex {
      var filenameIndex := sepIndex + 1;
      while filenameIndex < dotIndex
        invariant sepIndex + 1 <= filenameIndex <= dotIndex
        invariant forall k :: sepIndex < k < filenameIndex ==> p[k] == '.'
      {
        if p[filenameIndex] != '.' {
          return p[..dotIndex], p[dotIndex..];
        }
        filenameIndex := filenameIndex + 1;
      }
    }
    return p, [];
  }

  /** The root is a prefix of the path, and the whole path when there is no
      extension, in particular when the path holds no `.`. */
  lemma StemOfFileName(f: string)
    ensures SplitExt(f).0 <= f
    ensures !HasExtension(f) ==> SplitExt(f).0 == f
    ensures '.' !in f ==> SplitExt(f).0 == f
  {
  }
}

=== FILE: results.dfy ===
/** Failure-carrying values used in place of Python exceptions and `None`. */
module Results {

  /** An optional value: a dictionary entry that may be absent. */
  datatype Option<+T> = None | Some(value: T)

  /** Either a value or the reason there is none. */
  datatype Result<+T, +E> = Ok(value: T) | Err(error: E)
}

=== FILE: s3key.dfy ===
/** What the handler derives from a decoded S3 object key: whether it is
    accepted, its base folder, content path and file name, the job's user
    metadata, and the two S3 URIs written into the job settings. */
module S3Key {
  import opened Results
  import opened PyStr

  /** Only keys under this prefix are processed. */
  const Prefix: string := "vod/"

  /** The extension recorded for every HLS output. */
  const OutputExtension: string := ".m3u8"

  /** Why a key is refused with status 400. */
  datatype Rejection = OutsidePrefix | TooFewSegments

  /** The three pieces of an accepted key. */
  datatype KeyParts = KeyParts(baseFolder: string, contentPath: string, fileName: string)

  /** The user metadata attached to the job, one field per dictionary key. */
  datatype JobMetadata = JobMetadata(
    baseFolder: string,
    contentPath: string,
    fileName: string,
    outputPath: string,
    outputExtension: string)

  /** Validate a decoded key and cut it into first segment, joined middle
      segments and last segment. A key is refused outside `vod/`, and
      refused when it has fewer than two `/`; empty segments are fine. */
  function ParseKey(key: string): (r: Result<KeyParts, Rejection>)
    ensures r == Err(OutsidePrefix) <==> !(Prefix <= key)
    ensures r == Err(TooFewSegments) <==> Prefix <= key && Count(key, '/') < 2
    ensures r.Ok? ==> r.value.baseFolder == "vod" && '/' !in r.value.fileName
    ensures r.Ok? ==> r.value.baseFolder + "/" + r.value.contentPath + "/" + r.value.fileName == key
  {
    if !(Prefix <= key) then Err(OutsidePrefix)
    else
      var parts := Split(key, '/');
      if |parts| < 3 then Err(TooFewSegments)
      else
        var n := |parts|;
        assert key == "vod" + ['/'] + key[4..];
        SplitAfterSegment("vod", '/', key[4..]);
        JoinFirstMiddleLast(parts, '/');
        assert '/' !in parts[n - 1];
        Ok(KeyParts(parts[0], Join(parts[1..n - 1], '/'), parts[n - 1]))
  }

  /** A key under the prefix is accepted exactly when another `/` follows
      the prefix. */
  lemma AcceptedIff(key: string)
    ensures ParseKey(key).Ok? <==> Prefix <= key && '/' in key[|Prefix|..]
  {
    if Prefix <= key {
      assert key == Prefix + key[4..];
      CountConcat(Prefix, key[4..], '/');
      CountZero(key[4..], '/');
    }
  }

  /** The file name without its extension, as `os.path.splitext` gives it. */
  function Stem(fileName: string): string
  {
    SplitExt(fileName).0
  }

  /** The job metadata built from the pieces of a key. */
  function Metadata(parts: KeyParts): (m: JobMetadata)
    ensures m.outputPath + SplitExt(parts.fileName).1 == ComposeKey(parts)
    ensures m.outputPath <= ComposeKey(parts)
    ensures ComposeKey(KeyParts(m.baseFolder, m.contentPath, m.fileName)) == ComposeKey(parts)
    ensures m.outputExtension == ".m3u8"
    ensures KeyParts(m.baseFolder, m.contentPath, m.fileName) == parts
  {
    JobMetadata(
      parts.baseFolder,
      parts.contentPath,
      parts.fileName,
      parts.baseFolder + "/" + parts.contentPath + "/" + Stem(parts.fileName),
      OutputExtension)
  }

  /** For an accepted key, the metadata mirrors the key: its three fields are
      exactly the pieces the key parses into, the output path is
      the key with the file's extension removed, so it is a prefix of the
      key and is the key itself when the file name has no `.`; the stem is
      a prefix of the file name; the output extension is always `.m3u8`. */
  lemma MetadataOfKey(key: string, parts: KeyParts)
    requires ParseKey(key) == Ok(parts)
    ensures var m := Metadata(parts);
      && m.baseFolder == "vod"
      && m.baseFolder + "/" + m.contentPath + "/" + m.fileName == key
      && '/' !in m.fileName
      && ParseKey(key) == Ok(KeyParts(m.baseFolder, m.contentPath, m.fileName))
      && m.outputPath + SplitExt(m.fileName).1 == key
      && m.outputPath <= key
      && Stem(m.fileName) <= m.fileName
      && ('.' !in m.fileName ==> m.outputPath == key)
      && m.outputExtension == ".m3u8"
  {
  }

  /** `s3://bucket/path`. */
  function S3Uri(bucket: string, path: string): string
  {
    "s3://" + bucket + "/" + path
  }

  /** The HLS output folder: the output path under the destination bucket,
      always ending in `/`. */
  function HlsDestination(destinationBucket: string, outputPath: string): (d: string)
    ensures |d| > 0 && d[|d| - 1] == '/'
    ensures S3Uri(destinationBucket, outputPath) <= d
  {
    S3Uri(destinationBucket, outputPath) + "/"
  }

  /** For an accepted key the destination folder is the key minus its file
      extension, under the destination bucket, with a trailing `/`. */
  lemma DestinationOfKey(key: string, parts: KeyParts, destinationBucket: string)
    requires ParseKey(key) == Ok(parts)
    ensures var ext := SplitExt(parts.fileName).1;
      && |ext| <= |key|
      && HlsDestination(destinationBucket, Metadata(parts).outputPath)
         == "s3://" + destinationBucket + "/" + key[..|key| - |ext|] + "/"
  {
  }

  /** The key a set of pieces stands for: base folder, content path and file name joined by `/`. */
  function ComposeKey(parts: KeyParts): string
  {
    parts.baseFolder + "/" + parts.contentPath + "/" + parts.fileName
  }

  /** Parsing is the inverse of composing: pieces with base folder `vod` and
      a file name without `/` come back unchanged from the key they compose,
      whatever `/`s the content path holds. */
  lemma {:induction false} ParseComposeKey(parts: KeyParts)
    requires parts.baseFolder == "vod"
    requires '/' !in parts.fileName
    ensures ParseKey(ComposeKey(parts)) == Ok(parts)
  {
    var key := ComposeKey(parts);
    var c, f := parts.contentPath, parts.fileName;
    assert key == "vod" + ['/'] + (c + ['/'] + f);
    assert Prefix <= key;
    SplitAfterSegment("vod", '/', c + ['/'] + f);
    SplitBeforeSegment(c, '/', f);
    var mid := Split(c, '/');
    var ps := Split(key, '/');
    assert ps == ["vod"] + mid + [f];
    assert ps[1..|ps| - 1] == mid;
  }

  /** `vod/x` is refused for having too few segments; `vod//` is accepted
      with an empty content path and an empty file name. */
  lemma EdgeKeys()
    ensures ParseKey("vod/x") == Err(TooFewSegments)
    ensures ParseKey("vod//") == Ok(KeyParts("vod", "", ""))
  {
  }
}

=== FILE: template.dfy ===
/** Writing the two per-request values into the job-settings template:
    the HLS destination of the first output group and the file input of
    the first input. */
module Template {
  import opened Results
  import opened JsonValue

  /** `['OutputGroups'][0]['OutputGroupSettings']['HlsGroupSettings']['Destination']` */
  const DestinationPath: seq<Step> :=
    [Key("OutputGroups"), Index(0), Key("OutputGroupSettings"), Key("HlsGroupSettings"), Key("Destination")]

  /** `['Inputs'][0]['FileInput']` */
  const FileInputPath: seq<Step> := [Key("Inputs"), Index(0), Key("FileInput")]

  lemma PathsDiverge()
    ensures Diverge(DestinationPath, FileInputPath)
    ensures Diverge(FileInputPath, DestinationPath)
  {
    assert DestinationPath[0] != FileInputPath[0];
  }

  /** The two assignments, destination first; the first that raises ends
      the patch. */
  function Patch(template: Json, destination: string, fileInput: string): (r: Result<Json, PyError>)
    ensures r.Ok? ==> Get(r.value, DestinationPath) == Ok(JString(destination))
    ensures r.Ok? ==> Get(r.value, FileInputPath) == Ok(JString(fileInput))
  {
    match SetPath(template, DestinationPath, JString(destination))
    case Err(e) => Err(e)
    case Ok(t1) =>
      GetAfterSetPath(template, DestinationPath, JString(destination), t1);
      match SetPath(t1, FileInputPath, JString(fileInput))
      case Err(e) => Err(e)
      case Ok(t2) =>
        GetAfterSetPath(t1, FileInputPath, JString(fileInput), t2);
        PathsDiverge();
        SetPathFrame(t1, FileInputPath, JString(fileInput), t2, DestinationPath);
        Ok(t2)
  }

  /** Patching leaves every part of the template that lies off both target
      paths exactly as it was. */
  lemma PatchLeavesRestUnchanged(template: Json, destination: string, fileInput: string, q: seq<Step>)
    requires Patch(template, destination, fileInput).Ok?
    requires Diverge(DestinationPath, q) && Diverge(FileInputPath, q)
    ensures Get(Patch(template, destination, fileInput).value, q) == Get(template, q)
  {
    var t1 := SetPath(template, DestinationPath, JString(destination)).value;
    var t2 := Patch(template, destination, fileInput).value;
    SetPathFrame(template, DestinationPath, JString(destination), t1, q);
    SetPathFrame(t1, FileInputPath, JString(fileInput), t2, q);
  }

  /** The patch succeeds exactly when the template holds a dictionary at
      `OutputGroups[0].OutputGroupSettings.HlsGroupSettings` and at
      `Inputs[0]`. */
  lemma PatchSucceedsIff(template: Json, destination: string, fileInput: string)
    ensures Patch(template, destination, fileInput).Ok?
        <==> && Get(template, DestinationPath[..4]).Ok?
             && Get(template, DestinationPath[..4]).value.JObject?
             && Get(template, FileInputPath[..2]).Ok?
             && Get(template, FileInputPath[..2]).value.JObject?
  {
    var d, f := JString(destination), JString(fileInput);
    SetPathSucceedsIff(template, DestinationPath, d);
    assert DestinationPath[..|DestinationPath| - 1] == DestinationPath[..4];
    assert FileInputPath[..|FileInputPath| - 1] == FileInputPath[..2];
    match SetPath(template, DestinationPath, d)
    case Err(_) =>
    case Ok(t1) =>
      SetPathSucceedsIff(t1, FileInputPath, f);
      // The first write does not touch anything on the way to Inputs[0].
      assert Diverge(DestinationPath, FileInputPath[..2]) by {
        assert DestinationPath[0] != FileInputPath[..2][0];
      }
      SetPathFrame(template, DestinationPath, d, t1, FileInputPath[..2]);
  }

  /** Every path that leaves both patched paths reads the same before and
      after a successful patch. */
  lemma PatchFrame(template: Json, destination: string, fileInput: string)
    ensures Patch(template, destination, fileInput).Ok? ==>
      forall q :: Diverge(DestinationPath, q) && Diverge(FileInputPath, q) ==>
        Get(Patch(template, destination, fileInput).value, q) == Get(template, q)
  {
    if Patch(template, destination, fileInput).Ok? {
      forall q | Diverge(DestinationPath, q) && Diverge(FileInputPath, q)
        ensures Get(Patch(template, destination, fileInput).value, q) == Get(template, q)
      {
        PatchLeavesRestUnchanged(template, destination, fileInput, q);
      }
    }
  }

  /** Which exception a failed patch raises: the first failing read on the way
      to `HlsGroupSettings`, a TypeError when that is not a dictionary, and
      then the same two cases for `Inputs[0]`. */
  lemma PatchFailure(template: Json, destination: string, fileInput: string)
    ensures var r := Patch(template, destination, fileInput);
            var g1 := Get(template, DestinationPath[..4]);
            var g2 := Get(template, FileInputPath[..2]);
            && (g1.Err? ==> r == Err(g1.error))
            && (g1.Ok? && !g1.value.JObject? ==> r == Err(TypeError))
            && (g1.Ok? && g1.value.JObject? && g2.Err? ==> r == Err(g2.error))
            && (g1.Ok? && g1.value.JObject? && g2.Ok? && !g2.value.JObject? ==> r == Err(TypeError))
  {
    var d, f := JString(destination), JString(fileInput);
    SetPathSucceedsIff(template, DestinationPath, d);
    SetPathFailure(template, DestinationPath, d);
    assert DestinationPath[..|DestinationPath| - 1] == DestinationPath[..4];
    assert FileInputPath[..|FileInputPath| - 1] == FileInputPath[..2];
    match SetPath(template, DestinationPath, d)
    case Err(_) =>
    case Ok(t1) =>
      SetPathSucceedsIff(t1, FileInputPath, f);
      SetPathFailure(t1, FileInputPath, f);
      assert Diverge(DestinationPath, FileInputPath[..2]) by {
        assert DestinationPath[0] != FileInputPath[..2][0];
      }
      SetPathFrame(template, DestinationPath, d, t1, FileInputPath[..2]);
  }
}
